=== FILE: README.md ===
# best_bus transit estimator, modelled in Dafny

The program estimates when a rider can continue a two-leg bus trip. For each
stop it fetches the Metro Transit NexTrip departure board. It keeps, per stop,
the departures on the routes the rider cares about. Then it chains the legs:
the first leg's next departure plus the leg's nominal duration is a horizon,
and the last leg's begin stop is searched for the first departure after it.

The model covers that logic:

- `js.dfy` (`Js`): the JavaScript notions the logic depends on, and a few
  general facts about sequences. A value may be `undefined` (`Option`), and a
  number may be NaN (`Num`); `>` and `<=` are false as soon as NaN is
  involved. `Distinct` and `Elements` relate a list of keys to its set.
- `metro_date.dfy` (`MetroDate`): `metroTransitDateToNum`. It takes
  characters 6 to 18 of a `/Date(<epoch ms><zone>)/` timestamp, with the
  clamping of `substring`, and converts them with unary `+`.
- `board.dfy` (`Board`): a departure board and the three things done to it.
  `Filter` selects by route. `Overlay` writes the fresh filtered board over the
  previous one. It never shortens the board, so stale entries past the fresh
  ones survive. `AfterTimeAsWritten` is the search `nextDepartureAfterTime`
  performs. It also holds the corrected search and the counterexamples of
  the finding below.
- `stop.dfy` (`Stops`): the `Stop` class. `dep` is a field that `Update`
  changes in place with the source's two-index loop. The global `webData` is
  an explicit parameter.
- `itinerary.dfy` (`Itinerary`): the `Leg`, `Trip` and `Journey` classes.
  - `uniqueStops` is a loop that collects stop ids.
  - `update` fans out from journey to trips to legs to stops.
  - The chaining arithmetic of `display` is `Trip.Estimate`.
  - A trip's last leg is absent when its nominal duration is undefined. The
    constructor always builds both legs, because `obj.lastLeg !== {}` is
    always true.
- `route_data.dfy` (`RouteData`): `storeRouteData` and the refresh step that
  follows a completed fetch (store, then update every trip).

The source never shares a stop object between legs: every leg builds its own
two stops, so trips that name the same stop id still hold distinct `Stop`
objects. The proofs do not depend on that: they also allow one stop object to
be reached through several trips, or to be both ends of a leg. Updating a
stop twice against the same boards equals updating it once
(`Stops.UpdateIdempotent`), and `Trip.Update` and `Journey.Update` rely on
that.

Behaviour of the source that the model keeps:

- `nextDeparture` reads `dep[0]`, which throws on an empty board. The model
  makes a non-empty board a precondition.
- `metroTransitDateToNum` never throws and never drops an entry. A non-digit
  in the epoch field gives NaN, and every comparison with NaN is false. A
  string too short to reach the field gives 0, because `substring` clamps and
  `+""` is 0.
- When `nextDepartureAfterTime` finds nothing it returns null, and `display`
  then throws printing `time2.time`. The model ends before the printing and
  returns the null result as `NoDeparture`.
- `nextDepartureAfterTime` searches the raw board but reads the filtered one
  (see Findings).
- `update` does not clear the stop's previous board. When fewer departures
  match than before, old entries remain after the fresh ones.

## Model

| member | source | states |
|---|---|---|
| Stops.Stop.constructor | script.js:10-14 | a new stop has the given id and routes and an empty board |
| Stops.Stop.Update | script.js:15-22 | the new board is the fresh route-filtered raw board written over the previous one; loop invariants: the first j entries are the filtered prefix and the rest are the old entries |
| Stops.UpdateIdempotent | script.js:15-22 | a second update on unchanged raw boards changes nothing |
| Stops.NextDepartureAfterUpdate | script.js:23-28 | after an update, the next departure is the first raw departure, in board order, on one of the stop's routes; with no match, the stale previous board is kept unchanged |
| Stops.Stop.NextDeparture | script.js:23-28 | the time text and milliseconds of the head of `dep`, which `NextDepartureAfterUpdate` shows to be the first matching raw departure in board order |
| Stops.Stop.NextDepartureAfterTime | script.js:29-40 | returns exactly what `AfterTimeAsWritten` specifies for the raw board and `dep` |
| Stops.Stop.NextFilteredDepartureAfter | script.js:29-40 | the corrected search: returns the first entry of `dep` itself strictly after the time, or None |
| Board.Filter | script.js:16-21 | the filtered board is no longer than the raw board, and each of its entries runs on one of the routes |
| Board.FilterIsSubsequence | script.js:16-21 | the filtered board is the raw board read at strictly increasing positions, and every matching position is read: exactly the matching departures, in board order |
| Board.FilterKeepsAll | script.js:16-21 | when every departure matches, filtering keeps the whole board |
| Board.FilterHead | script.js:16-21 | the head of a non-empty filtered board is the first matching departure in board order |
| Board.Overlay | script.js:16-21 | the new length is the larger of the old length and the match count; the prefix is the filtered board and later entries keep their old values |
| Board.OverlayIdempotent | script.js:16-21 | writing the same filtered board twice equals writing it once |
| Board.OverlayEmpty | script.js:16-21 | with no matching departure, the previous board is kept |
| Board.FirstAfter | script.js:31-32 | None exactly when no entry is strictly after t; otherwise the least such position |
| Board.AfterTimeAsWritten | script.js:31-39 | null exactly when no raw entry is after t; otherwise `dep` is read at the least raw position i, and the read is undefined (a throw) when i is at or past the end of `dep` |
| Board.AsWrittenStillAfter | script.js:31-36 | on a sorted raw board, when the fresh filtered board covers the position found, the entry read is on one of the routes and after t |
| Board.AsWrittenAgreesWhenAllMatch | script.js:31-36 | when every raw departure matches, the as-written search equals the intended one |
| Board.FirstFilteredAfter | script.js:29-40 | the intended search: None exactly when no filtered entry is after t, else the first such entry |
| Board.FirstFilteredAfterIsMinimal | script.js:29-40 | on a sorted board, the intended result is after t and no departure lies strictly between t and it |
| Board.AsWrittenSkipsEarlierDeparture | script.js:31-36 | a sorted board where the as-written search returns 300 while the first filtered departure after 150 is 200 |
| Board.AsWrittenReadsPastFilteredBoard | script.js:31-36 | a sorted board where the as-written search reads past the end of the filtered board while the intended search finds nothing |
| Itinerary.Leg.constructor | script.js:44-49 | a leg builds two fresh, distinct stops from the ids, routes and duration, with empty boards |
| Itinerary.Leg.Update | script.js:50-53 | both stops are refreshed, also when begin and end are one stop |
| Itinerary.Trip.HasLastLeg | script.js:80-82 | true exactly when the last leg's duration is defined |
| Itinerary.Trip.constructor | script.js:57-79 | both legs are always built from the configuration, with four fresh stops, the first leg's two disjoint from the last leg's; the trip has a last leg exactly when the last leg's duration is defined |
| Itinerary.Trip.ActiveStopIds | script.js:110-116 | every stop the trip refreshes has its id among the trip's ids |
| Itinerary.Trip.Update | script.js:83-88 | the first leg's stops, and the last leg's only when it exists, are refreshed; nothing else changes |
| Itinerary.Horizon | script.js:141-142 | a number exactly when the departure time is a number and the duration is defined (otherwise NaN, as `undefined * 1000` is); it is the time plus duration×1000, never before the departure for a non-negative duration |
| Itinerary.Trip.Estimate | script.js:131-142 | chaining happens exactly when the trip has a last leg; the horizon is the first departure plus duration×1000; a NaN or undefined operand yields null; otherwise the as-written search result at the horizon |
| Itinerary.Trip.IntendedEstimate | script.js:131-142 | the chaining with the intended search: a departure of the last leg's own board after the horizon, or none, never an undefined read |
| Itinerary.EstimatesAgreeWhenAllOnRoute | script.js:138-142 | when every last-leg raw departure is on the leg's routes and no stale entry remains, both chainings agree |
| Itinerary.ChainingScenario | script.js:133-142 | origin "2" at T, destination "Blue" at T+500000, duration 360 s: the last-leg estimate is the T+500000 departure |
| Itinerary.ChainingScenarioNoMatch | script.js:138-142 | with an empty destination board the search returns null, not an undefined read |
| Itinerary.StopIdsOfCovers | script.js:106-119 | the ids collected across the trips include every trip's ids |
| Itinerary.Insert | script.js:111-116 | setting a key of the object adds it once and keeps the keys distinct; new keys go last, the first-seen order that stands in for JavaScript's numeric key order (see Left out) |
| Itinerary.Journey.constructor | script.js:92-95 | a new journey has no trips |
| Itinerary.Journey.AddTrip | script.js:96-102 | one trip is appended, built from the configuration with an empty description and fresh, empty stops, the first leg's two disjoint from the last leg's; earlier trips are kept |
| Itinerary.Journey.NumTrips | script.js:103-105 | the number of trips, zero exactly for an empty journey |
| Itinerary.Journey.UniqueStops | script.js:106-119 | the keys are exactly the first-leg stop ids of every trip plus the last-leg ids of trips with a last leg, each once |
| Itinerary.Journey.Update | script.js:120-124 | every stop of every trip's active legs ends refreshed exactly once, even when one stop object is reached through several trips |
| Itinerary.Journey.Display | script.js:125-148 | one estimate per trip, in trip order, each equal to `Trip.Estimate` |
| Itinerary.Journey.IntendedDisplay | script.js:125-148 | the estimates `display` would compute with the intended search: one per trip, in order, each `Trip.IntendedEstimate`, none an undefined read |
| MetroDate.EpochField | script.js:352 | `substring(6, 19)`: the 13 characters at 6..18 when the string is long enough, never more than 13 |
| MetroDate.ToNumber | script.js:352 | unary `+`: a number exactly for digit strings (the empty string is 0), and below 10^length |
| MetroDate.DateToNum | script.js:342-353 | a number exactly when the epoch field is all digits; always a 13-digit value or less; a well-formed timestamp always converts |
| MetroDate.DateToNumIsSafe | script.js:350 | every result is at most 2^53-1, exact in a double |
| MetroDate.DateRoundTrip | script.js:342-352 | reading back a formatted timestamp gives its epoch milliseconds, whatever the zone |
| MetroDate.SourceExample | script.js:343-344 | `/Date(1539990000000-0500)/` gives 1539990000000 |
| MetroDate.MalformedIsNaN | script.js:352 | a non-digit in the epoch field gives NaN |
| RouteData.ToDeparture | script.js:329-333 | actual, depart and route are copied, and departTime is the converted timestamp |
| RouteData.StoreRouteData | script.js:316-340 | the keys of the result are exactly the stop keys; the i-th key's board converts the i-th response one-for-one, in count and order |
| RouteData.Refresh | script.js:303-311 | the keys are the unique stop ids, each response is stored under its key, and every active stop of every trip is refreshed against those boards |

## Left out

- `webUpdate`'s fetches, `Promise.all` and URL building are left out, as is `initJourney`'s timer and button wiring. They are network and UI. `Refresh` starts from the responses, already parsed.
- `JSON.parse` is a library call. Responses are already-parsed `RawDeparture` records, and a field of another JSON type is not modelled.
- `console.log` output is not modelled. `Display` returns the estimates it would print.
- `webUpdate`'s `.then` callback calls `journey.uniqueStops()` again on the global `journey`, which a button press in `initJourney` can replace while the fetches are in flight; the responses then pair with the wrong stop ids. `Refresh` takes one journey for both the keys and the update, so it does not capture that interleaving.
- The hardcoded journey tables are configuration only and are not modelled.
- Key order: JavaScript lists integer-like object keys, such as these stop ids, in ascending numeric order. `UniqueStops` returns first-seen order instead. `StoreRouteData` and `Refresh` take the key order as given, and the pairing they prove holds for any order that the fetch and the store share.
- Stops.Stop.NextDeparture: requires a non-empty board, because reading `dep[0]` of an empty board throws.
- Stops.Stop.Update: requires the stop id to be a key of `webData`; otherwise the source throws reading the length of `undefined`.
- Itinerary.Journey.Display: requires every first leg's begin board to be non-empty and every chained stop id to be in `webData`, because the source throws otherwise. The throw in `nextDepartureAfterTime` when it reads `this.dep[i].depart` past the end of `dep` is kept as `UndefinedEntry` in the result.
- Itinerary.Journey.Display: in the source, that throw, or the one on printing `time2.time` of a null result, ends `display`'s loop, so later trips are never shown. The model still returns one estimate for every trip.
- MetroDate.ToNumber: models unary `+` only on strings of decimal digits. Any other string gives NaN here, while JavaScript gives a number for some of them: surrounding whitespace, signs, decimal fractions, exponents, `Infinity`, and the hexadecimal, octal (`0o`) and binary (`0b`) forms.
- The `{}` last leg: its undefined ids and routes are modelled as the empty string and empty list. They are never read, because such a trip has no last leg.
- Durations are whole seconds and times whole milliseconds (`int`). Floating-point durations are not modelled.
- MetroDate.EpochField: JavaScript's `substring` counts UTF-16 code units, while a Dafny string counts characters. A character outside the Basic Multilingual Plane before position 19 would shift the field in JavaScript but not here. The ASCII timestamp format never contains one.

## Findings

| source | as written | input that shows it | evidently intended | confidence | as-written member | corrected member |
|---|---|---|---|---|---|---|
| script.js:31-35 | the search index runs over the raw board but reads the filtered `dep` at that index | raw board (route 7 at 100, route 2 at 200, route 2 at 300), routes ["2"], time 150: returns the 300 departure | the first filtered departure after the time, 200 | not executed | Board.AsWrittenSkipsEarlierDeparture | Board.FirstFilteredAfterIsMinimal |
| script.js:31-35 | the raw index can lie past the end of the filtered `dep`, and reading `.depart` of the undefined entry throws | raw board (route 2 at 100, route 7 at 200), routes ["2"], time 150: reads `dep[1]` of a one-entry board | no departure (null) | not executed | Board.AsWrittenReadsPastFilteredBoard | Itinerary.Trip.IntendedEstimate |

=== FILE: board.dfy ===
/**
 * A stop's departure board and the three operations the estimator runs on it:
 * filtering it by route, laying a fresh filtered board over the previous one,
 * and searching it for the first departure after a given time.
 */
module Board {
  import opened Js

  /** One entry of a departure board, as `storeRouteData` stores it. */
  datatype Departure = Departure(actual: bool, depart: string, departTime: Num, route: string)

  /** The `{time, timeInMs}` record that `nextDeparture` and `nextDepartureAfterTime` return. */
  datatype Time = Time(time: string, timeInMs: Num)

  /** The record read off a board entry: its display text and its time in milliseconds. */
  function TimeOf(d: Departure): (t: Time)
  {
    Time(d.depart, d.departTime)
  }

  /** The departures of `s` whose route is one of `routes`, in board order. */
  function Filter(s: seq<Departure>, routes: seq<string>): (f: seq<Departure>)
    ensures |f| <= |s|
    ensures forall k | 0 <= k < |f| :: f[k].route in routes
  {
    if s == [] then []
    else Filter(s[..|s| - 1], routes) + (if s[|s| - 1].route in routes then [s[|s| - 1]] else [])
  }

  /** The board positions whose route is one of `routes`, in increasing order. */
  ghost function MatchIndices(s: seq<Departure>, routes: seq<string>): seq<nat>
  {
    if s == [] then []
    else MatchIndices(s[..|s| - 1], routes) + (if s[|s| - 1].route in routes then [|s| - 1] else [])
  }

  /**
   * Stability of the route filter: the filtered board is the board read at the
   * matching positions, in increasing order, and every matching position is
   * read. So `Filter` keeps exactly the matching departures, in board order.
   */
  lemma {:induction false} FilterIsSubsequence(s: seq<Departure>, routes: seq<string>)
    ensures var p := MatchIndices(s, routes);
            && |p| == |Filter(s, routes)|
            && (forall k | 0 <= k < |p| :: k <= p[k] < |s| && Filter(s, routes)[k] == s[p[k]])
            && (forall k, l | 0 <= k < l < |p| :: p[k] < p[l])
            && (forall i | 0 <= i < |s| && s[i].route in routes :: i in p)
  {
    if s != [] {
      var init, last := s[..|s| - 1], s[|s| - 1];
      FilterIsSubsequence(init, routes);
      var p', f' := MatchIndices(init, routes), Filter(init, routes);
      var p, f := MatchIndices(s, routes), Filter(s, routes);
      assert p == p' + (if last.route in routes then [|s| - 1] else []);
      assert f == f' + (if last.route in routes then [last] else []);
      forall k | 0 <= k < |p|
        ensures k <= p[k] < |s| && f[k] == s[p[k]]
      {
        if k < |p'| {
          assert p[k] == p'[k] && f[k] == f'[k] && s[p'[k]] == init[p'[k]];
        }
      }
      forall i | 0 <= i < |s| && s[i].route in routes
        ensures i in p
      {
        if i < |s| - 1 {
          assert init[i] == s[i];
          assert i in p';
        } else {
          assert p[|p| - 1] == i;
        }
      }
    }
  }

  /** Filtering one more entry of the board appends it when its route matches. */
  lemma FilterStep(s: seq<Departure>, routes: seq<string>, i: nat)
    requires i < |s|
    ensures Filter(s[..i + 1], routes) == Filter(s[..i], routes) + if s[i].route in routes then [s[i]] else []
  {
    assert s[..i + 1][..i] == s[..i];
  }

  /** When every departure is on one of the routes, filtering keeps the whole board. */
  lemma {:induction false} FilterKeepsAll(s: seq<Departure>, routes: seq<string>)
    requires forall k | 0 <= k < |s| :: s[k].route in routes
    ensures Filter(s, routes) == s
  {
    if s != [] {
      FilterKeepsAll(s[..|s| - 1], routes);
      assert s[..|s| - 1] + [s[|s| - 1]] == s;
    }
  }

  /** The head of a non-empty filtered board is the first matching departure in board order. */
  lemma FilterHead(s: seq<Departure>, routes: seq<string>)
    requires Filter(s, routes) != []
    ensures exists i | 0 <= i < |s| ::
              Filter(s, routes)[0] == s[i] && s[i].route in routes &&
              forall k | 0 <= k < i :: s[k].route !in routes
  {
    FilterIsSubsequence(s, routes);
    var p := MatchIndices(s, routes);
    assert Filter(s, routes)[0] == s[p[0]];
  }

  /**
   * The board a stop holds after an update: the fresh filtered board `f` laid
   * over the previous board `prev`. The update never shortens the board, so
   * entries of `prev` past the end of `f` survive.
   */
  function Overlay(prev: seq<Departure>, f: seq<Departure>): (d: seq<Departure>)
    ensures |d| == if |f| <= |prev| then |prev| else |f|
    ensures d[..|f|] == f
    ensures forall i | |f| <= i < |d| :: d[i] == prev[i]
  {
    if |f| <= |prev| then f + prev[|f|..] else f
  }

  /** Laying the same filtered board twice is the same as laying it once. */
  lemma OverlayIdempotent(prev: seq<Departure>, f: seq<Departure>)
    ensures Overlay(Overlay(prev, f), f) == Overlay(prev, f)
  {
    var d := Overlay(prev, f);
    assert d == f + d[|f|..];
  }

  /** With nothing fresh to lay down, the previous board stays in place, stale but present. */
  lemma OverlayEmpty(prev: seq<Departure>)
    ensures Overlay(prev, []) == prev
  {
  }

  /** A board that agrees with `f` on its first `|f|` entries and with `prev` after them is `Overlay(prev, f)`. */
  lemma OverlayUnique(prev: seq<Departure>, f: seq<Departure>, d: seq<Departure>)
    requires |d| == if |f| <= |prev| then |prev| else |f|
    requires forall k | 0 <= k < |f| :: d[k] == f[k]
    requires forall k | |f| <= k < |d| :: d[k] == prev[k]
    ensures d == Overlay(prev, f)
  {
    var o := Overlay(prev, f);
    forall k | 0 <= k < |d|
      ensures d[k] == o[k]
    {
      if k < |f| {
        assert o[k] == o[..|f|][k];
      }
    }
  }

  /** Position `i` holds the first departure of `s` strictly after `t`. */
  predicate IsFirstAfter(s: seq<Departure>, t: Num, i: int)
  {
    0 <= i < |s| && Greater(s[i].departTime, t) &&
    forall k | 0 <= k < i :: !Greater(s[k].departTime, t)
  }

  /** The position of the first departure of `s` strictly after `t`, if any. */
  function FirstAfter(s: seq<Departure>, t: Num): (r: Option<nat>)
    ensures r.None? <==> forall k | 0 <= k < |s| :: !Greater(s[k].departTime, t)
    ensures r.Some? ==> IsFirstAfter(s, t, r.value)
    ensures forall i | IsFirstAfter(s, t, i) :: r == Some(i)
  {
    if s == [] then None
    else if Greater(s[0].departTime, t) then Some(0)
    else
      match FirstAfter(s[1..], t)
      case None => None
      case Some(i) => Some(i + 1)
  }

  /** What `nextDepartureAfterTime` gives back. */
  datatype AfterResult =
    | Departs(time: Time)          // a departure was found
    | NoDeparture                  // `null`
    | UndefinedEntry(index: nat)   // `this.dep[i]` is undefined: reading `.depart` throws a TypeError

  /**
   * `nextDepartureAfterTime` as written: the position is searched on the raw
   * board `raw`, but the departure is read from the filtered board `dep` at
   * that same position.
   */
  function AfterTimeAsWritten(raw: seq<Departure>, dep: seq<Departure>, t: Num): (r: AfterResult)
    ensures r == NoDeparture <==> forall k | 0 <= k < |raw| :: !Greater(raw[k].departTime, t)
    ensures forall i | IsFirstAfter(raw, t, i) ::
              if i < |dep| then r == Departs(TimeOf(dep[i])) else r == UndefinedEntry(i)
  {
    match FirstAfter(raw, t)
    case None => NoDeparture
    case Some(i) => if i < |dep| then Departs(TimeOf(dep[i])) else UndefinedEntry(i)
  }

  /** The search as evidently intended: the first departure of the filtered board after `t`. */
  function FirstFilteredAfter(dep: seq<Departure>, t: Num): (r: Option<Time>)
    ensures r.None? <==> forall k | 0 <= k < |dep| :: !Greater(dep[k].departTime, t)
    ensures forall i | IsFirstAfter(dep, t, i) :: r == Some(TimeOf(dep[i]))
  {
    match FirstAfter(dep, t)
    case None => None
    case Some(i) => Some(TimeOf(dep[i]))
  }

  /** Departure times never decrease along the board (and none is NaN). */
  predicate Sorted(s: seq<Departure>)
  {
    forall i, j | 0 <= i <= j < |s| :: AtMost(s[i].departTime, s[j].departTime)
  }

  /**
   * Minimality: on a sorted board the intended search returns a time after `t`
   * and no departure of the board lies strictly between `t` and that time.
   */
  lemma FirstFilteredAfterIsMinimal(dep: seq<Departure>, t: Num)
    requires Sorted(dep)
    ensures match FirstFilteredAfter(dep, t)
            case None => forall k | 0 <= k < |dep| :: !Greater(dep[k].departTime, t)
            case Some(x) =>
              Greater(x.timeInMs, t) &&
              forall k | 0 <= k < |dep| && Greater(dep[k].departTime, t) :: AtMost(x.timeInMs, dep[k].departTime)
  {
    match FirstAfter(dep, t)
    case None =>
    case Some(i) =>
      forall k | 0 <= k < |dep| && Greater(dep[k].departTime, t)
        ensures AtMost(dep[i].departTime, dep[k].departTime)
      {
        assert i <= k;
      }
  }

  /**
   * What the as-written search still guarantees on a sorted board whose fresh
   * filtered copy covers the position it lands on: the departure it reads is
   * on one of the routes and leaves after `t` (though possibly not first).
   */
  lemma {:induction false} AsWrittenStillAfter(raw: seq<Departure>, routes: seq<string>, prev: seq<Departure>, t: Num)
    requires Sorted(raw)
    ensures var dep := Overlay(prev, Filter(raw, routes));
            forall i | IsFirstAfter(raw, t, i) && i < |Filter(raw, routes)| ::
              AfterTimeAsWritten(raw, dep, t) == Departs(TimeOf(dep[i])) &&
              dep[i].route in routes && Greater(dep[i].departTime, t)
  {
    var f := Filter(raw, routes);
    var dep := Overlay(prev, f);
    FilterIsSubsequence(raw, routes);
    var p := MatchIndices(raw, routes);
    forall i | IsFirstAfter(raw, t, i) && i < |f|
      ensures dep[i] == raw[p[i]] && dep[i].route in routes && Greater(dep[i].departTime, t)
    {
      assert dep[i] == dep[..|f|][i] == f[i];
      assert AtMost(raw[i].departTime, raw[p[i]].departTime);
    }
  }

  /** When every departure is on the leg's routes, the as-written search is the intended one. */
  lemma AsWrittenAgreesWhenAllMatch(raw: seq<Departure>, routes: seq<string>, prev: seq<Departure>, t: Num)
    requires forall k | 0 <= k < |raw| :: raw[k].route in routes
    ensures AfterTimeAsWritten(raw, Overlay(prev, Filter(raw, routes)), t) ==
            match FirstFilteredAfter(raw, t)
            case None => NoDeparture
            case Some(x) => Departs(x)
  {
    FilterKeepsAll(raw, routes);
    var dep := Overlay(prev, raw);
    match FirstAfter(raw, t)
    case None =>
    case Some(i) =>
      assert dep[i] == dep[..|raw|][i] == raw[i];
  }

  /** A board where the as-written search returns a later departure than the first one after `t`. */
  lemma AsWrittenSkipsEarlierDeparture()
    ensures var raw := [Departure(false, "1 Min", Int(100), "7"),
                        Departure(false, "3 Min", Int(200), "2"),
                        Departure(false, "5 Min", Int(300), "2")];
            var dep := Filter(raw, ["2"]);
            && Sorted(raw)
            && AfterTimeAsWritten(raw, dep, Int(150)) == Departs(Time("5 Min", Int(300)))
            && FirstFilteredAfter(dep, Int(150)) == Some(Time("3 Min", Int(200)))
  {
    var raw := [Departure(false, "1 Min", Int(100), "7"),
                Departure(false, "3 Min", Int(200), "2"),
                Departure(false, "5 Min", Int(300), "2")];
    assert raw[..2][..1] == raw[..1];
    assert raw[..3][..2] == raw[..2];
    assert Filter(raw, ["2"]) == [raw[1], raw[2]];
    assert IsFirstAfter(raw, Int(150), 1);
    assert IsFirstAfter([raw[1], raw[2]], Int(150), 0);
  }

  /** A board where the as-written search lands past the end of the filtered copy and throws. */
  lemma AsWrittenReadsPastFilteredBoard()
    ensures var raw := [Departure(false, "1 Min", Int(100), "2"),
                        Departure(false, "3 Min", Int(200), "7")];
            var dep := Filter(raw, ["2"]);
            && Sorted(raw)
            && AfterTimeAsWritten(raw, dep, Int(150)) == UndefinedEntry(1)
            && FirstFilteredAfter(dep, Int(150)) == None
  {
    var raw := [Departure(false, "1 Min", Int(100), "2"),
                Departure(false, "3 Min", Int(200), "7")];
    assert raw[..2][..1] == raw[..1];
    assert Filter(raw, ["2"]) == [raw[0]];
    assert IsFirstAfter(raw, Int(150), 1);
  }
}

=== FILE: itinerary.dfy ===
/**
 * Legs, trips and journeys. A leg rides some routes from a begin stop to an
 * end stop; a trip is a first leg and a last leg, where a last leg whose
 * nominal duration is undefined stands for "no last leg"; a journey is a list
 * of alternative trips. Only the stops' boards and the journey's trip list
 * ever change, so every other field is a constant.
 */
module Itinerary {
  import opened Js
  import opened Board
  import opened Stops

  /** The configuration object of one leg; `{}` is `EmptyLeg`. */
  datatype LegSpec = LegSpec(routes: seq<string>, beginID: string, endID: string, nominalDur: Option<int>)

  /**
   * The empty object `{}` given for a trip without a last leg: every field is
   * undefined. Its ids and routes are never read (the trip has no last leg).
   */
  const EmptyLeg: LegSpec := LegSpec([], "", "", None)

  /** The configuration object `addTrip` receives. */
  datatype TripSpec = TripSpec(firstLeg: LegSpec, lastLeg: LegSpec)

  class Leg {
    const begin: Stop
    const end: Stop
    const dur: Option<int>   // nominal duration in seconds, a low estimate; None when undefined
    const descr: string

    constructor (beginID: string, endID: string, routes: seq<string>, nominalDuration: Option<int>, descr: string)
      ensures fresh(begin) && fresh(end) && begin != end
      ensures begin.dep == [] && end.dep == []
      ensures this.descr == descr
      ensures BuiltFrom(LegSpec(routes, beginID, endID, nominalDuration))
    {
      begin := new Stop(beginID, routes);
      end := new Stop(endID, routes);
      dur := nominalDuration;
      this.descr := descr;
    }

    /** Both stops of this leg were made from `spec`, and so was its duration. */
    predicate BuiltFrom(spec: LegSpec)
    {
      && begin.stopId == spec.beginID && begin.routes == spec.routes
      && end.stopId == spec.endID && end.routes == spec.routes
      && dur == spec.nominalDur
    }

    /** `update`: refreshes the begin stop, then the end stop. */
    method Update(webData: WebData)
      requires begin.stopId in webData && end.stopId in webData
      modifies begin, end
      ensures begin.dep == begin.Refreshed(webData, old(begin.dep))
      ensures end.dep == end.Refreshed(webData, old(end.dep))
    {
      begin.Update(webData);
      end.Update(webData);
      if begin == end {
        UpdateIdempotent(end, webData, old(end.dep));
      }
    }
  }

  /** `time.timeInMs + dur * 1000`: NaN when the time is NaN or the duration is undefined. */
  function Horizon(timeInMs: Num, dur: Option<int>): (h: Num)
    ensures h.Int? <==> timeInMs.Int? && dur.Some?
    ensures h.Int? ==> h.value - timeInMs.value == dur.value * 1000
    ensures h.Int? && dur.value >= 0 ==> h.value >= timeInMs.value
  {
    if timeInMs.Int? && dur.Some? then Int(timeInMs.value + dur.value * 1000) else NaN
  }

  /** What `display` works out for one trip: the first leg's next departure, and the last leg's when there is one. */
  datatype TripEstimate = TripEstimate(first: Time, last: Option<AfterResult>)

  class Trip {
    const firstLeg: Leg
    const lastLeg: Leg
    const descr: string
    /** The stops `update` refreshes, fixed when the trip is built (see `Valid`). */
    ghost const active: set<Stop>

    /**
     * The source tests `obj.firstLeg !== {}` and `obj.lastLeg !== {}`; a fresh
     * object literal is never identical to an existing object, so both legs
     * are always built.
     */
    constructor (descr: string, obj: TripSpec)
      ensures fresh(firstLeg) && fresh(lastLeg) && firstLeg != lastLeg
      ensures fresh(firstLeg.begin) && fresh(firstLeg.end) && fresh(lastLeg.begin) && fresh(lastLeg.end)
      ensures {firstLeg.begin, firstLeg.end} !! {lastLeg.begin, lastLeg.end}
      ensures firstLeg.begin.dep == [] && firstLeg.end.dep == [] && lastLeg.begin.dep == [] && lastLeg.end.dep == []
      ensures firstLeg.BuiltFrom(obj.firstLeg) && lastLeg.BuiltFrom(obj.lastLeg)
      ensures this.descr == descr
      ensures HasLastLeg() <==> obj.lastLeg.nominalDur.Some?
      ensures Valid()
    {
      var first := new Leg(obj.firstLeg.beginID, obj.firstLeg.endID, obj.firstLeg.routes, obj.firstLeg.nominalDur, "");
      var last := new Leg(obj.lastLeg.beginID, obj.lastLeg.endID, obj.lastLeg.routes, obj.lastLeg.nominalDur, "");
      firstLeg, lastLeg := first, last;
      this.descr := descr;
      active := {first.begin, first.end} + if last.dur.Some? then {last.begin, last.end} else {};
    }

    /** `hasLastLeg`: the last leg's duration is defined. */
    function HasLastLeg(): (b: bool)
      ensures b <==> lastLeg.dur != None
    {
      lastLeg.dur.Some?
    }

    /** `active` holds the first leg's two stops, and the last leg's two when there is a last leg. */
    ghost predicate Valid()
    {
      active == {firstLeg.begin, firstLeg.end} + if HasLastLeg() then {lastLeg.begin, lastLeg.end} else {}
    }

    /** The ids of `active`. */
    function ActiveStopIds(): (ids: set<string>)
      ensures Valid() ==> forall s | s in active :: s.stopId in ids
    {
      {firstLeg.begin.stopId, firstLeg.end.stopId} +
      if HasLastLeg() then {lastLeg.begin.stopId, lastLeg.end.stopId} else {}
    }

    /** `update`: refreshes the first leg, and the last leg only when there is one. */
    method Update(webData: WebData)
      requires Valid()
      requires forall s | s in active :: s.stopId in webData
      modifies active
      ensures forall s | s in active :: s.dep == s.Refreshed(webData, old(s.dep))
    {
      firstLeg.Update(webData);
      if HasLastLeg() {
        lastLeg.Update(webData);
        forall s | s in active
          ensures s.dep == s.Refreshed(webData, old(s.dep))
        {
          UpdateIdempotent(s, webData, old(s.dep));
        }
      }
    }

    /**
     * The chaining rule of `display`: the last leg's begin stop is searched for
     * a departure after the first leg's next departure plus the first leg's
     * nominal duration, in milliseconds.
     */
    function Estimate(webData: WebData): (e: TripEstimate)
      reads firstLeg.begin, lastLeg.begin
      requires |firstLeg.begin.dep| > 0
      requires HasLastLeg() ==> lastLeg.begin.stopId in webData
      ensures e.first == TimeOf(firstLeg.begin.dep[0])
      ensures e.last.Some? <==> HasLastLeg()
      ensures HasLastLeg() && (e.first.timeInMs.NaN? || firstLeg.dur.None?) ==> e.last == Some(NoDeparture)
      ensures HasLastLeg() && e.first.timeInMs.Int? && firstLeg.dur.Some? ==>
                var raw := webData[lastLeg.begin.stopId];
                var horizon := e.first.timeInMs.value + firstLeg.dur.value * 1000;
                && (e.last == Some(NoDeparture) <==> forall k | 0 <= k < |raw| :: !Greater(raw[k].departTime, Int(horizon)))
                && forall i | IsFirstAfter(raw, Int(horizon), i) ::
                     e.last == Some(if i < |lastLeg.begin.dep| then Departs(TimeOf(lastLeg.begin.dep[i])) else UndefinedEntry(i))
    {
      var time := firstLeg.begin.NextDeparture();
      if HasLastLeg() then
        TripEstimate(time, Some(AfterTimeAsWritten(webData[lastLeg.begin.stopId], lastLeg.begin.dep, Horizon(time.timeInMs, firstLeg.dur))))
      else
        TripEstimate(time, None)
    }

    /**
     * The chaining rule with the search evidently intended: the last leg's
     * own filtered board is searched, so the result is a departure on one of
     * its routes, strictly after the horizon, or no departure, and never an
     * undefined entry.
     */
    function IntendedEstimate(): (e: TripEstimate)
      reads firstLeg.begin, lastLeg.begin
      requires |firstLeg.begin.dep| > 0
      ensures e.first == TimeOf(firstLeg.begin.dep[0])
      ensures e.last.Some? <==> HasLastLeg()
      ensures HasLastLeg() ==>
                var dep := lastLeg.begin.dep;
                var horizon := Horizon(e.first.timeInMs, firstLeg.dur);
                && (e.last == Some(NoDeparture) <==> forall k | 0 <= k < |dep| :: !Greater(dep[k].departTime, horizon))
                && forall i | IsFirstAfter(dep, horizon, i) :: e.last == Some(Departs(TimeOf(dep[i])))
    {
      var time := firstLeg.begin.NextDeparture();
      if HasLastLeg() then
        match FirstFilteredAfter(lastLeg.begin.dep, Horizon(time.timeInMs, firstLeg.dur))
        case None => TripEstimate(time, Some(NoDeparture))
        case Some(x) => TripEstimate(time, Some(Departs(x)))
      else
        TripEstimate(time, None)
    }
  }

  /**
   * When every departure on the last leg's raw board runs on the leg's
   * routes, and the board held before the update was no longer than the new
   * one (so no stale entry is left behind), the as-written chaining and the
   * intended one agree.
   */
  lemma EstimatesAgreeWhenAllOnRoute(trip: Trip, webData: WebData, prev: seq<Departure>)
    requires |trip.firstLeg.begin.dep| > 0 && trip.HasLastLeg()
    requires trip.lastLeg.begin.stopId in webData
    requires forall k | 0 <= k < |webData[trip.lastLeg.begin.stopId]| ::
               webData[trip.lastLeg.begin.stopId][k].route in trip.lastLeg.begin.routes
    requires |prev| <= |webData[trip.lastLeg.begin.stopId]|
    requires trip.lastLeg.begin.dep == trip.lastLeg.begin.Refreshed(webData, prev)
    ensures trip.Estimate(webData) == trip.IntendedEstimate()
  {
    var b := trip.lastLeg.begin;
    var raw := webData[b.stopId];
    FilterKeepsAll(raw, b.routes);
    assert b.dep == raw by {
      assert b.dep[..|raw|] == raw;
    }
  }

  /**
   * A trip whose two begin stops were refreshed from empty boards: the origin
   * board holds one route "2" departure at `T`, the destination board one
   * "Blue" departure 500 seconds later, and the first leg takes 360 seconds.
   * The destination departure is after the horizon `T + 360000`, so it is the
   * estimate for the last leg.
   */
  lemma ChainingScenario(trip: Trip, webData: WebData, T: int)
    requires trip.firstLeg.dur == Some(360) && trip.HasLastLeg()
    requires trip.firstLeg.begin.routes == ["2"] && trip.lastLeg.begin.routes == ["Blue"]
    requires trip.firstLeg.begin.stopId in webData && trip.lastLeg.begin.stopId in webData
    requires webData[trip.firstLeg.begin.stopId] == [Departure(false, "5 Min", Int(T), "2")]
    requires webData[trip.lastLeg.begin.stopId] == [Departure(false, "12 Min", Int(T + 500000), "Blue")]
    requires trip.firstLeg.begin.dep == trip.firstLeg.begin.Refreshed(webData, [])
    requires trip.lastLeg.begin.dep == trip.lastLeg.begin.Refreshed(webData, [])
    ensures |trip.firstLeg.begin.dep| > 0
    ensures trip.Estimate(webData) == TripEstimate(Time("5 Min", Int(T)), Some(Departs(Time("12 Min", Int(T + 500000)))))
  {
    var origin := webData[trip.firstLeg.begin.stopId];
    var destination := webData[trip.lastLeg.begin.stopId];
    assert Filter(origin, ["2"]) == origin;
    assert Filter(destination, ["Blue"]) == destination;
    assert IsFirstAfter(destination, Int(T + 360000), 0);
  }

  /** The same trip with an empty destination board: there is no estimate for the last leg, and no error. */
  lemma ChainingScenarioNoMatch(trip: Trip, webData: WebData, T: int)
    requires trip.firstLeg.dur == Some(360) && trip.HasLastLeg()
    requires trip.firstLeg.begin.routes == ["2"]
    requires trip.firstLeg.begin.stopId in webData && trip.lastLeg.begin.stopId in webData
    requires webData[trip.firstLeg.begin.stopId] == [Departure(false, "5 Min", Int(T), "2")]
    requires webData[trip.lastLeg.begin.stopId] == []
    requires trip.firstLeg.begin.dep == trip.firstLeg.begin.Refreshed(webData, [])
    requires trip.lastLeg.begin.dep == trip.lastLeg.begin.Refreshed(webData, [])
    ensures |trip.firstLeg.begin.dep| > 0
    ensures trip.Estimate(webData) == TripEstimate(Time("5 Min", Int(T)), Some(NoDeparture))
  {
    var origin := webData[trip.firstLeg.begin.stopId];
    assert Filter(origin, ["2"]) == origin;
  }

  /** The stops `update` refreshes across the trips `ts`. */
  ghost function StopsOf(ts: seq<Trip>): set<Stop>
  {
    if ts == [] then {} else StopsOf(ts[..|ts| - 1]) + ts[|ts| - 1].active
  }

  /** The stop ids `uniqueStops` collects across the trips `ts`. */
  ghost function StopIdsOf(ts: seq<Trip>): set<string>
  {
    if ts == [] then {} else StopIdsOf(ts[..|ts| - 1]) + ts[|ts| - 1].ActiveStopIds()
  }

  /** The stops trip `i` refreshes are among those of `ts`. */
  lemma {:induction false} StopsOfHas(ts: seq<Trip>, i: nat)
    requires i < |ts|
    ensures ts[i].active <= StopsOf(ts)
  {
    if i < |ts| - 1 {
      StopsOfHas(ts[..|ts| - 1], i);
    }
  }

  /** The ids of the first `i + 1` trips are those of the first `i` and those of trip `i`. */
  lemma StopIdsOfStep(ts: seq<Trip>, i: nat)
    requires i < |ts|
    ensures StopIdsOf(ts[..i + 1]) == StopIdsOf(ts[..i]) + ts[i].ActiveStopIds()
  {
    assert ts[..i + 1][..i] == ts[..i];
  }

  /** The ids collected across `ts` include the ids of each of its trips. */
  lemma {:induction false} StopIdsOfCovers(ts: seq<Trip>)
    ensures forall t | t in ts :: t.ActiveStopIds() <= StopIdsOf(ts)
  {
    if ts != [] {
      var init := ts[..|ts| - 1];
      StopIdsOfCovers(init);
      assert forall t | t in ts && t != ts[|ts| - 1] :: t in init;
    }
  }

  /**
   * `obj[k] = []` on the object `uniqueStops` builds, with the keys kept in
   * first-seen order: a new key goes last, an existing key keeps its place.
   * JavaScript lists integer-like keys in ascending numeric order instead.
   */
  function Insert(keys: seq<string>, k: string): (r: seq<string>)
    ensures forall x :: x in r <==> x in keys || x == k
    ensures Distinct(keys) ==> Distinct(r)
    ensures |keys| <= |r| && r[..|keys|] == keys
  {
    if k in keys then keys else keys + [k]
  }

  class Journey {
    var trips: seq<Trip>
    const descr: string

    constructor (descr: string)
      ensures trips == [] && this.descr == descr && Valid()
    {
      trips := [];
      this.descr := descr;
    }

    /** `addTrip`: builds a trip from `obj`, with an empty description, and appends it. */
    method AddTrip(obj: TripSpec)
      requires Valid()
      modifies this
      ensures Valid()
      ensures NumTrips() == old(NumTrips()) + 1 && trips[..|old(trips)|] == old(trips)
      ensures var t := trips[|trips| - 1];
              && fresh(t) && t.descr == ""
              && t.firstLeg.BuiltFrom(obj.firstLeg) && t.lastLeg.BuiltFrom(obj.lastLeg)
              && (t.HasLastLeg() <==> obj.lastLeg.nominalDur.Some?)
              && fresh(t.active)
              && {t.firstLeg.begin, t.firstLeg.end} !! {t.lastLeg.begin, t.lastLeg.end}
              && forall s | s in t.active :: s.dep == []
    {
      var trip := new Trip("", obj);
      trips := trips + [trip];
    }

    /** Every trip's `active` set holds exactly the stops its `update` refreshes. */
    ghost predicate Valid()
      reads this
    {
      forall t | t in trips :: t.Valid()
    }

    /** `numTrips`: the length of the trip list, which `addTrip` grows by one. */
    function NumTrips(): (n: nat)
      reads this
      ensures n == |trips| && (n == 0 <==> trips == [])
    {
      |trips|
    }

    /** Every stop the journey's `update` refreshes. */
    ghost function Stops(): set<Stop>
      reads this
    {
      StopsOf(trips)
    }

    /**
     * `uniqueStops`: the ids of every trip's first-leg stops, and of its
     * last-leg stops when it has a last leg, each once, in first-seen order.
     */
    method UniqueStops() returns (keys: seq<string>)
      ensures forall id :: id in keys <==> id in StopIdsOf(trips)
      ensures Distinct(keys)
    {
      keys := [];
      var i := 0;
      while i < |trips|
        invariant 0 <= i <= |trips|
        invariant forall id :: id in keys <==> id in StopIdsOf(trips[..i])
        invariant Distinct(keys)
      {
        var trip := trips[i];
        keys := Insert(keys, trip.firstLeg.begin.stopId);
        keys := Insert(keys, trip.firstLeg.end.stopId);
        if trip.HasLastLeg() {
          keys := Insert(keys, trip.lastLeg.begin.stopId);
          keys := Insert(keys, trip.lastLeg.end.stopId);
        }
        StopIdsOfStep(trips, i);
        i := i + 1;
      }
      assert trips[..i] == trips;
    }

    /** `update`: refreshes every trip in turn. */
    method Update(webData: WebData)
      requires Valid()
      requires forall t, s | t in trips && s in t.active :: s.stopId in webData
      modifies Stops()
      ensures forall t, s | t in trips && s in t.active :: s.dep == s.Refreshed(webData, old(s.dep))
    {
      var ts := trips;
      var i := 0;
      while i < |ts|
        invariant 0 <= i <= |ts|
        invariant forall k, s | 0 <= k < |ts| && s in ts[k].active ::
                    s.dep == s.Refreshed(webData, old(s.dep)) || (i <= k && s.dep == old(s.dep))
      {
        var trip := ts[i];
        StopsOfHas(ts, i);
        trip.Update(webData);
        forall k, s | 0 <= k < |ts| && s in ts[k].active
          ensures s.dep == s.Refreshed(webData, old(s.dep)) || (i < k && s.dep == old(s.dep))
        {
          if s in trip.active {
            UpdateIdempotent(s, webData, old(s.dep));
          }
        }
        i := i + 1;
      }
      forall t, s | t in trips && s in t.active
        ensures s.dep == s.Refreshed(webData, old(s.dep))
      {
        var k :| 0 <= k < |ts| && ts[k] == t;
      }
    }

    /** The estimates `display` prints, one per trip, in trip order (the printing itself is not modelled). */
    method Display(webData: WebData) returns (estimates: seq<TripEstimate>)
      requires forall t | t in trips :: |t.firstLeg.begin.dep| > 0 && (t.HasLastLeg() ==> t.lastLeg.begin.stopId in webData)
      ensures |estimates| == NumTrips()
      ensures forall i | 0 <= i < |trips| :: estimates[i] == trips[i].Estimate(webData)
    {
      estimates := [];
      var i := 0;
      while i < NumTrips()
        invariant 0 <= i <= |trips|
        invariant |estimates| == i
        invariant forall k | 0 <= k < i :: estimates[k] == trips[k].Estimate(webData)
      {
        var trip := trips[i];
        var time := trip.firstLeg.begin.NextDeparture();
        var last := None;
        if trip.HasLastLeg() {
          var time2 := trip.lastLeg.begin.NextDepartureAfterTime(webData, Horizon(time.timeInMs, trip.firstLeg.dur));
          last := Some(time2);
        }
        estimates := estimates + [TripEstimate(time, last)];
        i := i + 1;
      }
    }

    /**
     * `display` with the search evidently intended: the last leg's own board
     * is searched, so no estimate is ever an undefined read.
     */
    method IntendedDisplay() returns (estimates: seq<TripEstimate>)
      requires forall t | t in trips :: |t.firstLeg.begin.dep| > 0
      ensures |estimates| == NumTrips()
      ensures forall i | 0 <= i < |trips| :: estimates[i] == trips[i].IntendedEstimate()
      ensures forall i | 0 <= i < |trips| :: estimates[i].last.Some? ==> !estimates[i].last.value.UndefinedEntry?
    {
      estimates := [];
      var i := 0;
      while i < NumTrips()
        invariant 0 <= i <= |trips|
        invariant |estimates| == i
        invariant forall k | 0 <= k < i :: estimates[k] == trips[k].IntendedEstimate()
      {
        var trip := trips[i];
        var time := trip.firstLeg.begin.NextDeparture();
        var last := None;
        if trip.HasLastLeg() {
          var found := trip.lastLeg.begin.NextFilteredDepartureAfter(Horizon(time.timeInMs, trip.firstLeg.dur));
          last := Some(if found.Some? then Departs(found.value) else NoDeparture);
        }
        estimates := estimates + [TripEstimate(time, last)];
        i := i + 1;
      }
    }
  }
}

=== FILE: js.dfy ===
/**
 * The few JavaScript value notions the estimator depends on: a value that may
 * be `undefined`, and a number that may be NaN.
 */
module Js {

  /** `undefined` (None) or a defined value (Some). */
  datatype Option<+T> = None | Some(value: T)

  /**
   * A JavaScript number as the estimator uses it: a whole number of
   * milliseconds or seconds, or NaN (what `+"abc"` and `undefined * 1000`
   * produce).
   */
  datatype Num = Int(value: int) | NaN

  /** JavaScript's `a > b` on numbers: false as soon as either side is NaN. */
  predicate Greater(a: Num, b: Num)
  {
    a.Int? && b.Int? && a.value > b.value
  }

  /** JavaScript's `a <= b` on numbers: also false as soon as either side is NaN. */
  predicate AtMost(a: Num, b: Num)
  {
    a.Int? && b.Int? && a.value <= b.value
  }

  /** Every element of `s` occurs once. */
  predicate Distinct<T(==)>(s: seq<T>)
  {
    forall i, j | 0 <= i < j < |s| :: s[i] != s[j]
  }

  /** The elements of `s`, as a set. */
  function Elements<T>(s: seq<T>): set<T>
  {
    set x | x in s
  }

  /** A sequence without repetitions has as many elements as its set of elements. */
  lemma {:induction false} DistinctCardinality<T>(s: seq<T>)
    requires Distinct(s)
    ensures |Elements(s)| == |s|
  {
    if s != [] {
      var init := s[..|s| - 1];
      var last := s[|s| - 1];
      assert Distinct(init);
      DistinctCardinality(init);
      assert last !in init;
      assert s == init + [last];
      assert Elements(s) == Elements(init) + {last};
    }
  }
}

=== FILE: metro_date.dfy ===
/**
 * Metro Transit's timestamp format, `/Date(<13-digit epoch ms><zone>)/`, and
 * `metroTransitDateToNum`, which reads the epoch milliseconds out of it by
 * position: characters 6 to 18, converted with JavaScript's unary `+`.
 */
module MetroDate {
  import opened Js

  /** The largest integer a JavaScript number holds exactly, 2^53 - 1. */
  const MaxSafeInteger: int := 9007199254740991

  function Pow10(n: nat): (p: nat)
    ensures p >= 1
  {
    if n == 0 then 1 else 10 * Pow10(n - 1)
  }

  lemma {:induction false} Pow10Monotone(a: nat, b: nat)
    requires a <= b
    ensures Pow10(a) <= Pow10(b)
  {
    if a < b {
      Pow10Monotone(a, b - 1);
    }
  }

  predicate IsDigit(c: char)
  {
    '0' <= c <= '9'
  }

  predicate AllDigits(s: string)
  {
    forall i | 0 <= i < |s| :: IsDigit(s[i])
  }

  function DigitValue(c: char): (d: nat)
    requires IsDigit(c)
    ensures d < 10
  {
    c as int - '0' as int
  }

  function DigitChar(d: nat): (c: char)
    requires d < 10
    ensures IsDigit(c) && DigitValue(c) == d
  {
    (d + '0' as int) as char
  }

  /** The value of a string of decimal digits, most significant first. */
  function Decimal(s: string): (n: nat)
    requires AllDigits(s)
    ensures n < Pow10(|s|)
  {
    if s == [] then 0 else Decimal(s[..|s| - 1]) * 10 + DigitValue(s[|s| - 1])
  }

  /** The `width` lowest decimal digits of `n`, zero-padded, most significant first. */
  function Digits(n: nat, width: nat): (s: string)
    ensures |s| == width && AllDigits(s)
  {
    if width == 0 then [] else Digits(n / 10, width - 1) + [DigitChar(n % 10)]
  }

  /** Reading back the digits of a number that fits in `width` digits gives the number. */
  lemma {:induction false} DecimalOfDigits(n: nat, width: nat)
    requires n < Pow10(width)
    ensures Decimal(Digits(n, width)) == n
  {
    if width > 0 {
      var q, d := n / 10, n % 10;
      assert n == q * 10 + d;
      var s := Digits(n, width);
      var init := Digits(q, width - 1);
      assert s == init + [DigitChar(d)];
      assert s[..|s| - 1] == init;
      DecimalOfDigits(q, width - 1);
      assert Decimal(s) == Decimal(init) * 10 + d;
    }
  }

  /**
   * JavaScript's `s.substring(6, 19)`: both ends are clamped to the length of
   * `s`, so a short string yields a shorter (possibly empty) piece.
   */
  function EpochField(s: string): (f: string)
    ensures |s| >= 19 ==> f == s[6..19]
    ensures |f| <= 13
  {
    var from := if |s| < 6 then |s| else 6;
    var to := if |s| < 19 then |s| else 19;
    s[from..to]
  }

  /**
   * JavaScript's unary `+` on the strings the epoch field can hold: the empty
   * string is 0, a string of decimal digits is its value, and anything else
   * is NaN.
   */
  function ToNumber(s: string): (n: Num)
    ensures n.Int? <==> AllDigits(s)
    ensures n.Int? ==> 0 <= n.value < Pow10(|s|)
  {
    if AllDigits(s) then Int(Decimal(s)) else NaN
  }

  /** `metroTransitDateToNum`: the epoch milliseconds of a Metro Transit timestamp. */
  function DateToNum(d: string): (n: Num)
    ensures n.Int? <==> AllDigits(EpochField(d))
    ensures n.Int? ==> 0 <= n.value < Pow10(13)
    ensures |d| >= 19 && AllDigits(d[6..19]) ==> n.Int?
  {
    Pow10Monotone(|EpochField(d)|, 13);
    ToNumber(EpochField(d))
  }

  /** Every number the function returns is exact in a JavaScript double. */
  lemma DateToNumIsSafe(d: string)
    ensures DateToNum(d).Int? ==> DateToNum(d).value <= MaxSafeInteger
  {
    assert Pow10(13) == 10000000000000;
  }

  /** The timestamp Metro Transit sends for epoch milliseconds `ms` and zone `zone` (e.g. "-0500"). */
  function FormatDate(ms: nat, zone: string): (d: string)
    requires ms < Pow10(13)
    ensures |d| == 21 + |zone|
  {
    "/Date(" + Digits(ms, 13) + zone + ")/"
  }

  /** Reading a formatted timestamp gives back its milliseconds, whatever the zone. */
  lemma {:induction false} DateRoundTrip(ms: nat, zone: string)
    requires ms < Pow10(13)
    ensures DateToNum(FormatDate(ms, zone)) == Int(ms)
  {
    var d := FormatDate(ms, zone);
    assert d[6..19] == Digits(ms, 13);
    DecimalOfDigits(ms, 13);
  }

  /** The example in the source's own comment. */
  lemma SourceExample()
    ensures DateToNum("/Date(1539990000000-0500)/") == Int(1539990000000)
  {
    var d := "/Date(1539990000000-0500)/";
    var field := "1539990000000";
    assert d == "/Date(" + field + "-0500)/";
    assert d[6..19] == field;
    assert Pow10(13) == 10000000000000;
    ExampleDigits();
    DecimalOfDigits(1539990000000, 13);
  }

  lemma ExampleDigits()
    ensures Digits(1539990000000, 13) == "1539990000000"
  {
    assert Digits(1, 1) == "1";
    assert Digits(15, 2) == "15";
    assert Digits(153, 3) == "153";
    assert Digits(1539, 4) == "1539";
    assert Digits(15399, 5) == "15399";
    assert Digits(153999, 6) == "153999";
    assert Digits(1539990, 7) == "1539990";
    assert Digits(15399900, 8) == "15399900";
    assert Digits(153999000, 9) == "153999000";
    assert Digits(1539990000, 10) == "1539990000";
    assert Digits(15399900000, 11) == "15399900000";
    assert Digits(153999000000, 12) == "153999000000";
  }

  /** A timestamp whose epoch field holds a non-digit is NaN. */
  lemma MalformedIsNaN(d: string, k: nat)
    requires 6 <= k < 19 && k < |d| && !IsDigit(d[k])
    ensures DateToNum(d) == NaN
  {
    assert EpochField(d)[k - 6] == d[k];
  }
}

=== FILE: route_data.dfy ===
/**
 * `storeRouteData`: turns the fetched departure lists, one per stop id, into
 * the raw departure boards the stops read, and the refresh that follows a
 * fetch (store, then update every trip).
 */
module RouteData {
  import opened Js
  import opened MetroDate
  import opened Board
  import opened Stops
  import opened Itinerary

  /** One entry of a NexTrip departure list, with the four fields the estimator keeps. */
  datatype RawDeparture = RawDeparture(Actual: bool, DepartureText: string, DepartureTime: string, Route: string)

  /** The record stored for one raw entry: its time is read out of the Metro Transit timestamp. */
  function ToDeparture(r: RawDeparture): (d: Departure)
    ensures d.actual == r.Actual && d.depart == r.DepartureText && d.route == r.Route
    ensures d.departTime == DateToNum(r.DepartureTime)
  {
    Departure(r.Actual, r.DepartureText, DateToNum(r.DepartureTime), r.Route)
  }

  /**
   * `storeRouteData`: the `i`-th response is the departure list of the `i`-th
   * key; every key starts with an empty board, and the converted entries are
   * written at indices 0, 1, ... of it.
   */
  method StoreRouteData(resp: seq<seq<RawDeparture>>, keys: seq<string>) returns (webData: WebData)
    requires Distinct(keys) && |keys| <= |resp|
    ensures forall k :: k in webData <==> k in keys
    ensures forall i | 0 <= i < |keys| ::
              |webData[keys[i]]| == |resp[i]| &&
              forall j | 0 <= j < |resp[i]| :: webData[keys[i]][j] == ToDeparture(resp[i][j])
  {
    webData := map k | k in keys :: [];
    var i := 0;
    while i < |keys|
      invariant 0 <= i <= |keys|
      invariant forall k :: k in webData <==> k in keys
      invariant forall m | 0 <= m < i ::
                  |webData[keys[m]]| == |resp[m]| &&
                  forall j | 0 <= j < |resp[m]| :: webData[keys[m]][j] == ToDeparture(resp[m][j])
      invariant forall m | i <= m < |keys| :: webData[keys[m]] == []
    {
      var stop := keys[i];
      var departures := resp[i];
      ghost var before := webData;
      var j := 0;
      while j < |departures|
        invariant 0 <= j <= |departures|
        invariant forall k :: k in webData <==> k in keys
        invariant |webData[stop]| == j
        invariant forall n | 0 <= n < j :: webData[stop][n] == ToDeparture(departures[n])
        invariant forall m | 0 <= m < |keys| && m != i :: webData[keys[m]] == before[keys[m]]
      {
        webData := webData[stop := webData[stop] + [ToDeparture(departures[j])]];
        j := j + 1;
      }
      i := i + 1;
    }
  }

  /**
   * What `webUpdate` does once the fetches have come back: the responses,
   * one per key of `uniqueStops` and in the same order, are stored, and then
   * every trip is updated against them. The fetch itself, and the `display`
   * that follows, are not part of this method.
   */
  method Refresh(journey: Journey, resp: seq<seq<RawDeparture>>) returns (keys: seq<string>, webData: WebData)
    requires journey.Valid()
    requires |StopIdsOf(journey.trips)| <= |resp|
    modifies journey.Stops()
    ensures forall id :: id in keys <==> id in StopIdsOf(journey.trips)
    ensures Distinct(keys) && |keys| <= |resp|
    ensures forall k :: k in webData <==> k in keys
    ensures forall i | 0 <= i < |keys| ::
              |webData[keys[i]]| == |resp[i]| &&
              forall j | 0 <= j < |resp[i]| :: webData[keys[i]][j] == ToDeparture(resp[i][j])
    ensures forall t, s | t in journey.trips && s in t.active :: s.stopId in webData
    ensures forall t, s | t in journey.trips && s in t.active :: s.dep == s.Refreshed(webData, old(s.dep))
  {
    keys := journey.UniqueStops();
    DistinctCardinality(keys);
    assert Elements(keys) == StopIdsOf(journey.trips);
    webData := StoreRouteData(resp, keys);
    StopIdsOfCovers(journey.trips);
    forall t, s | t in journey.trips && s in t.active
      ensures s.stopId in webData
    {
      assert t.Valid();
    }
    journey.Update(webData);
  }
}

=== FILE: stop.dfy ===
/**
 * A stop of one leg: its Metro Transit stop id, the routes the leg rides, and
 * `dep`, its copy of the stop's departure board narrowed to those routes.
 * The global `webData` (stop id to raw departure board) is passed in explicitly.
 */
module Stops {
  import opened Js
  import opened Board

  /** The raw departure boards of the last refresh, keyed by stop id. */
  type WebData = map<string, seq<Departure>>

  class Stop {
    const stopId: string
    const routes: seq<string>
    var dep: seq<Departure>

    constructor (stopId: string, routes: seq<string>)
      ensures this.stopId == stopId && this.routes == routes && dep == []
    {
      this.stopId := stopId;
      this.routes := routes;
      dep := [];
    }

    /** The board `update` leaves behind when the stop held `prev` before it. */
    function Refreshed(webData: WebData, prev: seq<Departure>): (d: seq<Departure>)
      requires stopId in webData
      ensures |prev| <= |d|
      ensures var f := Filter(webData[stopId], routes); |f| <= |d| && d[..|f|] == f
    {
      Overlay(prev, Filter(webData[stopId], routes))
    }

    /**
     * `update`: copies the departures of `webData[stopId]` that run on one of
     * `routes` to the front of `dep`, in board order, one index for the raw
     * board and one for `dep`. Entries of `dep` past the copied ones are kept.
     */
    method Update(webData: WebData)
      requires stopId in webData
      modifies this
      ensures dep == Refreshed(webData, old(dep))
    {
      var raw := webData[stopId];
      var i, j := 0, 0;
      while i < |raw|
        invariant 0 <= i <= |raw|
        invariant j == |Filter(raw[..i], routes)|
        invariant |dep| == if j <= |old(dep)| then |old(dep)| else j
        invariant forall k | 0 <= k < j :: dep[k] == Filter(raw[..i], routes)[k]
        invariant forall k | j <= k < |dep| :: dep[k] == old(dep)[k]
      {
        FilterStep(raw, routes, i);
        if raw[i].route in routes {
          if j < |dep| {
            dep := dep[j := raw[i]];
          } else {
            dep := dep + [raw[i]];
          }
          j := j + 1;
        }
        i := i + 1;
      }
      assert raw[..i] == raw;
      OverlayUnique(old(dep), Filter(raw, routes), dep);
    }

    /** `nextDeparture`: the head of the filtered board (JavaScript throws when it is empty). */
    function NextDeparture(): (t: Time)
      reads this
      requires |dep| > 0
      ensures t.time == dep[0].depart && t.timeInMs == dep[0].departTime
    {
      TimeOf(dep[0])
    }

    /**
     * `nextDepartureAfterTime`: the first departure of the raw board
     * `webData[stopId]` strictly after `time` is looked for, and the entry of
     * `dep` at that same position is returned.
     */
    method NextDepartureAfterTime(webData: WebData, time: Num) returns (r: AfterResult)
      requires stopId in webData
      ensures r == AfterTimeAsWritten(webData[stopId], dep, time)
    {
      var raw := webData[stopId];
      var i := 0;
      while i < |raw|
        invariant 0 <= i <= |raw|
        invariant forall k | 0 <= k < i :: !Greater(raw[k].departTime, time)
      {
        if Greater(raw[i].departTime, time) {
          assert IsFirstAfter(raw, time, i);
          if i < |dep| {
            return Departs(TimeOf(dep[i]));
          }
          return UndefinedEntry(i);
        }
        i := i + 1;
      }
      return NoDeparture;
    }

    /**
     * The search `nextDepartureAfterTime` evidently means: the first departure
     * of the filtered board `dep` itself strictly after `time`, or None.
     */
    method NextFilteredDepartureAfter(time: Num) returns (r: Option<Time>)
      ensures r == FirstFilteredAfter(dep, time)
    {
      var i := 0;
      while i < |dep|
        invariant 0 <= i <= |dep|
        invariant forall k | 0 <= k < i :: !Greater(dep[k].departTime, time)
      {
        if Greater(dep[i].departTime, time) {
          assert IsFirstAfter(dep, time, i);
          return Some(TimeOf(dep[i]));
        }
        i := i + 1;
      }
      return None;
    }
  }

  /**
   * After an update, the stop's next departure is the first departure, in board order, of the
   * fresh raw board on one of its routes; when the fresh board has none, the
   * previous board is kept, stale, and its head is returned.
   */
  lemma NextDepartureAfterUpdate(s: Stop, webData: WebData, prev: seq<Departure>)
    requires s.stopId in webData && s.dep == s.Refreshed(webData, prev)
    ensures var raw := webData[s.stopId];
            Filter(raw, s.routes) == [] ==> s.dep == prev
    ensures var raw := webData[s.stopId];
            Filter(raw, s.routes) != [] ==>
              exists i | 0 <= i < |raw| ::
                s.NextDeparture() == TimeOf(raw[i]) && raw[i].route in s.routes &&
                forall k | 0 <= k < i :: raw[k].route !in s.routes
  {
    var f := Filter(webData[s.stopId], s.routes);
    if f != [] {
      FilterHead(webData[s.stopId], s.routes);
      assert s.dep[0] == s.dep[..|f|][0] == f[0];
    }
  }

  /** A second update on unchanged raw boards changes nothing. */
  lemma UpdateIdempotent(s: Stop, webData: WebData, prev: seq<Departure>)
    requires s.stopId in webData
    ensures s.Refreshed(webData, s.Refreshed(webData, prev)) == s.Refreshed(webData, prev)
  {
    OverlayIdempotent(prev, Filter(webData[s.stopId], s.routes));
  }
}
